=== FILE: README.md ===
# Visit recording, form filling and submitted forms: a Dafny model

This project models the logic of three pages of a clinical-documentation
prototype. A nurse records a home-health visit, the page flags assessment
questions that may be missing, and the nurse then reviews an auto-filled
OASIS assessment form beside the visit transcript. Finally the nurse
browses the forms already submitted.

- `text.dfy` (module `Text`) holds the string operations the pages use:
  - ASCII `toLowerCase`;
  - `includes`, written as `Contains`, with a reference definition by
    occurrence position;
  - `split(' ')` and the matching join;
  - distinctness of sequences.
- `filling.dfy` (module `Filling`) models the form-completion page:
  - the transcript, evidence-index and form fixtures;
  - the bidirectional, case-insensitive word highlighting;
  - rendering of a transcript line as spans;
  - the click/clear highlight lifecycle;
  - the overlay of typed values over the auto-filled defaults.
- `forms.dfy` (module `Forms`) models the submitted-forms page:
  - the search and status filter;
  - the status badge;
  - the count badge and the empty-state card.
- `conversation.dfy` (module `Conversation`) models the recording page as
  a state machine:
  - the start/stop, validate and end buttons and their guards;
  - the simulated validation, which flags one to three distinct questions;
  - dismissing a flagged question;
  - the processing screen that replaces everything once the page is ending.

Timer callbacks are discrete events. In `Filling` each click adds one
pending clear and `ClearFires` consumes one. In `Conversation` the
validation callback is the `ValidationFires` event. A click on a question
card (`DismissCard`) only schedules the card's removal. The removal itself
is the later `DismissFires` event, which removes the index captured at the
click from whatever list is current when it runs. The random shuffle and
the random count are a `Draw` that the environment supplies. A `Draw` is
any reordering of the question pool together with a count of 1, 2 or 3.
The module-level question array is reordered in place by every validation,
so the model keeps it as the `pool` field of the session state.

Where a reader might expect otherwise, the pages behave as follows:
- Clears are not cancelled, and nothing checks whether a newer click has
  happened since. A clear scheduled by an earlier click empties the list
  set by a later click (`StaleClearEmptiesNewerList`).
- Words come from splitting on a single space, not on whitespace.
  - Punctuation stays attached: with the pain-level evidence active,
    the patient's "... 7 out of 10." ends in the pieces "7", "out", "of"
    and "10.", and "10." is not highlighted (`PainLevelExample`).
  - The separating space is part of the word's span and shares its
    highlight.
  - Empty pieces from doubled, leading or trailing spaces are
    highlighted whenever any phrase is active (`EmptyWordHighlighted`).
- Empty transcript text renders as one empty piece, not as zero tokens.
- A card removal is not cancelled. If End is pressed within the 200 ms, the
  question still leaves the list behind the processing screen
  (`RemovalAfterEnd`). If a validation completes within the 200 ms, the
  captured index removes a question from the new list
  (`StaleRemovalHitsNewList`).

## Model

| member | source | states |
|---|---|---|
| Text.Contains | src/pages/FillingPage.tsx:227-228 | `includes` holds exactly when the needle occurs at some position of the haystack |
| Text.Lower | src/pages/FormsPage.tsx:86-88 | `toLowerCase` keeps the length and lower-cases each character on its own: A-Z become a-z and every other character is kept |
| Text.Split | src/pages/FillingPage.tsx:225 | `split(' ')` yields one more piece than there are spaces, and no piece contains a space |
| Text.JoinSplit | src/pages/FillingPage.tsx:225-236 | joining the split pieces with single spaces gives back the text exactly |
| Text.SplitAppend | src/pages/FillingPage.tsx:225 | splitting text joined at one space gives the pieces of the part before it followed by those of the part after it |
| Text.SplitJoin | src/pages/FillingPage.tsx:225 | space-free pieces joined and split again come back unchanged, so the split is the unique such decomposition |
| Filling.OasisIdsListed | src/pages/FillingPage.tsx:56-112 | the form's questions, section by section, carry exactly the 25 listed ids |
| Filling.OasisIdsDistinct | src/pages/FillingPage.tsx:56-112 | no two questions of the form share an id: the ids of the flattened sections are pairwise distinct |
| Filling.OasisIndexKeys | src/pages/FillingPage.tsx:28-54 | the evidence index has an entry for exactly the form's question ids |
| Filling.OasisIndexNonEmpty | src/pages/FillingPage.tsx:28-54 | every evidence-index entry lists at least one phrase |
| Filling.AllQuestions | src/pages/FillingPage.tsx:150-156 | a question is rendered iff it belongs to some section |
| Filling.Highlighted | src/pages/FillingPage.tsx:226-229 | a word is highlighted iff some active phrase matches it |
| Filling.Matches | src/pages/FillingPage.tsx:227-228 | definition: a word and a phrase match iff either one, lower-cased, includes the other, lower-cased |
| Filling.HighlightedIff | src/pages/FillingPage.tsx:226-229 | the highlight test is "some phrase in the list matches the word" |
| Filling.MatchesSymmetric | src/pages/FillingPage.tsx:227-228 | the case-insensitive containment test gives the same answer with word and phrase swapped |
| Filling.HighlightMonotone | src/pages/FillingPage.tsx:226-229 | adding phrases before or after the list never un-highlights a word |
| Filling.EmptyWordHighlighted | src/pages/FillingPage.tsx:225-228 | an empty piece is highlighted whenever any phrase is active |
| Filling.PainLevelExample | src/pages/FillingPage.tsx:18-39 | the patient's pain-score line splits into pieces ending "7", "out", "of", "10."; under the pain-level evidence the first three are highlighted and "10." is not |
| Filling.RenderLine | src/pages/FillingPage.tsx:224-241 | the line reads back as its text; unsplit iff no phrase is active; otherwise spaces+1 spans, span i is piece i plus a space except the last, highlighted iff its piece matches a phrase |
| Filling.WordSpans | src/pages/FillingPage.tsx:225-236 | one span per piece; span i is piece i plus a space except the last, highlighted iff the piece matches some phrase |
| Filling.IdleRenderHighlightsNothing | src/pages/FillingPage.tsx:239-241 | with no active phrase the line is emitted as plain unhighlighted text |
| Filling.RenderMonotone | src/pages/FillingPage.tsx:224-236 | a span whose piece is highlighted under a phrase list is highlighted, and stays so when phrases are added |
| Filling.RenderTranscript | src/pages/FillingPage.tsx:209-245 | one rendered line per transcript entry, each reading back as that entry's text; with an active phrase each entry has one span per word of its `split(' ')`, carrying that word and its space, highlighted iff the word matches some phrase |
| Filling.EvidenceFor | src/pages/FillingPage.tsx:120 | the phrases of a mapped id, and the empty list for an unmapped id |
| Filling.Click | src/pages/FillingPage.tsx:119-124 | a click sets the phrase list to the field's evidence, schedules one more clear and leaves the typed values alone |
| Filling.ClearFires | src/pages/FillingPage.tsx:123 | a firing clear empties the phrase list and consumes one pending clear |
| Filling.ClickReplaces | src/pages/FillingPage.tsx:119-121 | the list after a click does not depend on the list before it: no merging |
| Filling.StaleClearEmptiesNewerList | src/pages/FillingPage.tsx:119-124 | after clicks on a and then b, a's clear empties b's list while b's clear is still pending |
| Filling.InitialPageInv | src/pages/FillingPage.tsx:115 | the page starts with no active highlight, so none lacks a clear |
| Filling.ClickKeepsPageInv | src/pages/FillingPage.tsx:119-124 | every click that activates phrases also schedules a clear for them |
| Filling.ClearKeepsPageInv | src/pages/FillingPage.tsx:123 | a firing clear leaves no highlight without a clear to come |
| Filling.EditKeepsPageInv | src/pages/FillingPage.tsx:133-135 | typing in a field keeps every active highlight's clear pending |
| Filling.PageStep | src/pages/FillingPage.tsx:119-135 | a click replaces the list and schedules a clear, a firing clear empties the list and consumes one, an edit leaves both alone |
| Filling.PageRunKeepsInv | src/pages/FillingPage.tsx:122-123 | after any sequence of clicks, clears and edits, an active highlight always has a clear still to come |
| Filling.ClickOnFormFieldHighlights | src/pages/FillingPage.tsx:119-121 | clicking any question of any section activates a non-empty list, so the transcript is split into spans |
| Filling.UpdateFormData | src/pages/FillingPage.tsx:133-135 | the edited key takes the new value and every other key is unchanged |
| Filling.Edit | src/pages/FillingPage.tsx:166 | typing updates only the typed values, not the highlight state |
| Filling.DisplayAfterEdit | src/pages/FillingPage.tsx:165-174 | after an edit the field shows the new value, or the default again when the new value is empty |
| Filling.DisplayedValue | src/pages/FillingPage.tsx:165-174 | a non-empty edited value is shown; otherwise the default is shown; the field is empty only when the default is |
| Filling.DisplayOthersUnchanged | src/pages/FillingPage.tsx:133-135 | editing one field never changes what another field shows |
| Filling.DisplayedNeverEmpty | src/pages/FillingPage.tsx:165-174 | no field of the form can be shown empty, because every default is non-empty |
| Forms.MatchesSearch | src/pages/FormsPage.tsx:86-87 | definition: the lower-cased term is included in the lower-cased patient name or form id |
| Forms.MatchesStatus | src/pages/FormsPage.tsx:88-88 | definition: the filter is "all", or the lower-cased filter is included in the lower-cased status |
| Forms.Kept | src/pages/FormsPage.tsx:90-90 | definition: a form is kept iff it passes both the search and the status test |
| Forms.FilterForms | src/pages/FormsPage.tsx:85-91 | the result is an order-preserving subsequence of the forms; a form is in it iff it passes both the search and the status test, and it keeps every copy of a kept form and none of a rejected one |
| Forms.EmptySearchMatchesAll | src/pages/FormsPage.tsx:86-87 | an empty search term matches every form |
| Forms.UnfilteredListIsComplete | src/pages/FormsPage.tsx:85-91 | with an empty search and the "all" status the whole list is shown |
| Forms.SearchPrefixMatches | src/pages/FormsPage.tsx:86-87 | a form matching a search term matches every prefix of it |
| Forms.TypingNarrows | src/pages/FormsPage.tsx:85-91 | appending characters to the search term gives a subsequence of the previous result |
| Forms.FilterIdempotent | src/pages/FormsPage.tsx:85-91 | filtering the filtered list again changes nothing |
| Forms.PendingAdmitsPendingReview | src/pages/FormsPage.tsx:88 | the "pending" filter admits the "Pending Review" status |
| Forms.NoStatusMatchEmptiesList | src/pages/FormsPage.tsx:88-90 | a status filter that admits no form leaves an empty list |
| Forms.StatusOptionsOnMockForms | src/pages/FormsPage.tsx:144-148 | on the submitted forms, "all" admits everything, "completed" exactly the completed forms, "pending" exactly the one pending review, and "draft" nothing |
| Forms.DraftFilterIsEmpty | src/pages/FormsPage.tsx:144-149 | the "draft" option admits none of the submitted forms, whatever the search |
| Forms.StatusBadge | src/pages/FormsPage.tsx:93-101 | "Completed" maps to default, "Pending Review" to secondary, any other status to outline |
| Forms.RenderList | src/pages/FormsPage.tsx:120-220 | the count badge equals the number of rows, the empty-state card shows iff there are none, and the rows are the filtered forms with every copy of a kept form |
| Forms.EmptyStateIffNothingKept | src/pages/FormsPage.tsx:220-228 | "No forms found" appears iff no form passes the filter |
| Conversation.StartRecording | src/pages/ConversationPage.tsx:31-37 | starting sets the recording flag and changes nothing else |
| Conversation.StopRecording | src/pages/ConversationPage.tsx:39-45 | stopping clears the recording flag and changes nothing else |
| Conversation.PressMain | src/pages/ConversationPage.tsx:117 | the main button flips the recording flag and changes nothing else |
| Conversation.MainButtonToggles | src/pages/ConversationPage.tsx:115-138 | a button labelled Stop stops the recording, and one labelled Start starts it |
| Conversation.BeginValidation | src/pages/ConversationPage.tsx:47-48 | validating shows the spinner at once and schedules the callback, keeping the flagged list, the recording and ending flags and the pending card removals |
| Conversation.CompleteValidation | src/pages/ConversationPage.tsx:51-57 | the callback stops the spinner, keeps the reordered pool and flags the first count questions of it, leaving the recording and ending flags and the pending card removals alone |
| Conversation.ValidationFlagsDistinctQuestions | src/pages/ConversationPage.tsx:52-54 | a validation flags between one and three pairwise distinct questions, all from the fixed list |
| Conversation.ValidationReplaces | src/pages/ConversationPage.tsx:56 | the flagged list after validation does not depend on the list before it |
| Conversation.BeginEnding | src/pages/ConversationPage.tsx:66-67 | ending sets the ending flag and changes nothing else |
| Conversation.DismissQuestion | src/pages/ConversationPage.tsx:75-77 | dismissing index i removes exactly element i and keeps the order of the rest; an out-of-range index changes nothing |
| Conversation.DismissKeepsDistinctSubset | src/pages/ConversationPage.tsx:75-77 | dismissing never introduces or duplicates a question |
| Conversation.ClickCard | src/components/QuestionCard.tsx:14-17 | a click on a card only schedules its removal, with the index captured at the click; the list is unchanged |
| Conversation.RemovalFires | src/pages/ConversationPage.tsx:75-77 | a scheduled removal removes its captured index from the current list and is consumed; nothing else changes |
| Conversation.RemovalAfterEnd | src/components/QuestionCard.tsx:14-17 | a removal clicked before End is pressed still takes the question out of the list on the processing screen |
| Conversation.StaleRemovalHitsNewList | src/pages/ConversationPage.tsx:51-57 | a removal clicked before a validation completes removes its index from the newly flagged list |
| Conversation.Step | src/pages/ConversationPage.tsx:79-177 | once ending, the page stays ending, and no button or card click changes anything; the validation callback still completes the validation and a card-removal callback still removes its captured index, ending or not |
| Conversation.MockQuestionsDistinct | src/pages/ConversationPage.tsx:15-21 | the five fixed questions are pairwise distinct |
| Conversation.InitialInv | src/pages/ConversationPage.tsx:24-27 | the initial page satisfies the session invariant |
| Conversation.StepPreservesInv | src/pages/ConversationPage.tsx:47-77 | every event keeps the invariant: spinner iff callback pending, pool a reordering of the fixed questions, at most three distinct flagged questions from it |
| Conversation.RunPreservesInv | src/pages/ConversationPage.tsx:47-77 | the invariant holds after any sequence of events that can occur |
| Conversation.Render | src/pages/ConversationPage.tsx:79-178 | only the processing view is shown iff ending; otherwise the cards are the flagged questions, the guards decide the buttons, the spinner and "Validating..." show iff a validation is running, and "Listening..." shows iff recording |
| Conversation.ValidateEnabled | src/pages/ConversationPage.tsx:155-155 | definition: the validate button is enabled iff recording and no validation is running |
| Conversation.EndEnabled | src/pages/ConversationPage.tsx:172-172 | definition: the end button is enabled iff recording |
| Conversation.ValidateButtonGuard | src/pages/ConversationPage.tsx:151-156 | pressing validate changes the state iff the button is shown enabled: recording and not validating |
| Conversation.EndButtonGuard | src/pages/ConversationPage.tsx:168-172 | pressing end changes the state iff the button is shown enabled (recording), and then only the processing view is shown |
| Conversation.EndingIsFinal | src/pages/ConversationPage.tsx:79-91 | once ending, every later sequence of events still shows only the processing view |

## Left out

- The dashboard page is not part of this model. It shows static chart fixtures, and its only computation is a floating-point bar width.
- Routing and navigation chrome (the app shell, sidebar and top navigation) are not part of this model. They only compare the path with fixed tables.
- The question card's visibility flag is left out, so `Render` shows every flagged question as a card. The flag lives in the card component, and cards are keyed by index. After a removal, the question that moves into a hidden card's index therefore stays hidden in the source. The model also lets a card be clicked again before its removal runs, which the hidden card prevents.
- Toasts are left out, and so are `navigate` (after ending, and on the edit button of the forms page), form submission and `toLocaleDateString`. They are calls into the UI library or browser.
- Real time is left out: the 5000 ms clear, the 2000 ms validation, the 200 ms card removal and the 3000 ms processing screen. Each callback is an event that may fire at any point after it was scheduled, in any order.
- The processing screen's timer only navigates away, so it changes no modelled state.
- `Math.random` and the comparator-based shuffle are a supplied `Draw`. The model does not say which permutations the engine's sort can actually reach.
- Filling.Matches: lower-casing covers ASCII only. Full Unicode case mapping is not modelled.
- Forms.MatchesSearch: lower-casing covers ASCII only, as for the highlight test.
- Text.Lower: only the ASCII letters A-Z are mapped, so any other upper-case letter is kept as is. Full Unicode case mapping is not modelled.
- Filling.EvidenceFor: the lookup is on the fixture object, where an id such as "constructor" would also find an inherited property. The model treats only the listed keys as present. Ids come only from the form fixtures, so this cannot happen.
- Forms.StatusBadge: the same inherited-property lookup applies to the badge table. The model gives "outline" to every status outside the three listed.
- Rendering details are left out: JSX, CSS classes, the accordion, the speaker badge colour and the "Auto-filled" badge.
- The `value` argument of the click handler is never read, so clicks are modelled by field id alone.

=== FILE: conversation.dfy ===
/**
  The visit-recording page as a state machine: the recording, validating
  and ending flags, the flagged-question cards, the button guards, and the
  simulated validation that flags one to three questions from a fixed pool.
  Timer callbacks are discrete events; the random shuffle and count are a
  choice made by the environment.
 */
module Conversation {
  import opened Text

  const MockQuestions: seq<string> := [
    "Did you assess the patient's pain level using a standardized scale?",
    "Have you documented the patient's current medications and any changes?",
    "Did you evaluate the patient's ability to perform activities of daily living?",
    "Have you assessed the patient's home safety and fall risk factors?",
    "Did you check the patient's vital signs and document any concerns?"
  ]

  /**
    The page state.  `pool` is the question array itself, which every
    validation reorders in place; `validationPending` records that the
    validation callback has been scheduled and has not yet run;
    `dismissals` holds the card indices whose removal callbacks, scheduled
    by a click on the card, have not yet run.
   */
  datatype Session = Session(
    isRecording: bool,
    isValidating: bool,
    isEnding: bool,
    questions: seq<string>,
    pool: seq<string>,
    validationPending: bool,
    dismissals: seq<int>)

  const InitialSession: Session := Session(false, false, false, [], MockQuestions, false, [])

  // ---------------------------------------------------------------------
  // Guards and transitions
  // ---------------------------------------------------------------------

  /** The validate button is enabled only while recording and not already validating. */
  predicate ValidateEnabled(s: Session)
  {
    s.isRecording && !s.isValidating
  }

  /** The end button is enabled only while recording. */
  predicate EndEnabled(s: Session)
  {
    s.isRecording
  }

  function StartRecording(s: Session): (r: Session)
    ensures r.isRecording
    ensures r == s.(isRecording := true)
  {
    s.(isRecording := true)
  }

  function StopRecording(s: Session): (r: Session)
    ensures !r.isRecording
    ensures r == s.(isRecording := false)
  {
    s.(isRecording := false)
  }

  /** The main button stops a running recording and starts a stopped one. */
  function PressMain(s: Session): (r: Session)
    ensures r.isRecording == !s.isRecording
    ensures r.(isRecording := s.isRecording) == s
  {
    if s.isRecording then StopRecording(s) else StartRecording(s)
  }

  /** Pressing validate: the spinner shows at once and the callback is scheduled. */
  function BeginValidation(s: Session): (r: Session)
    requires ValidateEnabled(s)
    ensures r.isValidating && r.validationPending
    ensures r.isRecording == s.isRecording && r.isEnding == s.isEnding
    ensures r.questions == s.questions && r.pool == s.pool
    ensures r.dismissals == s.dismissals
  {
    s.(isValidating := true, validationPending := true)
  }

  /** Pressing end: only the processing screen is shown from now on. */
  function BeginEnding(s: Session): (r: Session)
    requires EndEnabled(s)
    ensures r.isEnding
    ensures r == s.(isEnding := true)
  {
    s.(isEnding := true)
  }

  /**
    The random outcome of one validation: the pool after the comparator
    shuffle, and how many questions are taken from its front.
   */
  datatype Draw = Draw(shuffled: seq<string>, count: nat)

  /** A draw the shuffle and `Math.floor(Math.random() * 3) + 1` can produce. */
  predicate ValidDraw(s: Session, d: Draw)
  {
    multiset(d.shuffled) == multiset(s.pool) && 1 <= d.count <= 3
  }

  /**
    The validation callback runs: the reordered pool stays reordered, the
    first `count` questions (all of them, if there are fewer) replace the
    flagged list, and the spinner stops.
   */
  function CompleteValidation(s: Session, d: Draw): (r: Session)
    requires s.validationPending
    requires ValidDraw(s, d)
    ensures !r.isValidating && !r.validationPending
    ensures r.pool == d.shuffled
    ensures |r.questions| == if d.count <= |s.pool| then d.count else |s.pool|
    ensures forall i :: 0 <= i < |r.questions| ==> r.questions[i] == d.shuffled[i]
    ensures r.isRecording == s.isRecording && r.isEnding == s.isEnding
    ensures r.dismissals == s.dismissals
  {
    assert |d.shuffled| == |multiset(d.shuffled)| == |multiset(s.pool)| == |s.pool|;
    var taken := if d.count <= |d.shuffled| then d.count else |d.shuffled|;
    s.(questions := d.shuffled[..taken], pool := d.shuffled,
       isValidating := false, validationPending := false)
  }

  /** `questions.filter((_, i) => i !== index)`. */
  function DismissQuestion(qs: seq<string>, index: int): (r: seq<string>)
    ensures 0 <= index < |qs| ==> r == qs[..index] + qs[index + 1..]
    ensures !(0 <= index < |qs|) ==> r == qs
    decreases |qs|
  {
    if |qs| == 0 then []
    else
      var rest := DismissQuestion(qs[1..], index - 1);
      if index == 0 then
        assert rest == qs[1..];
        rest
      else
        assert qs == [qs[0]] + qs[1..];
        [qs[0]] + rest
  }

  /** Dismissing never introduces a question and never duplicates one. */
  lemma DismissKeepsDistinctSubset(qs: seq<string>, index: int)
    requires Distinct(qs)
    ensures Distinct(DismissQuestion(qs, index))
    ensures forall q :: q in DismissQuestion(qs, index) ==> q in qs
  {
    var r := DismissQuestion(qs, index);
    if 0 <= index < |qs| {
      assert forall j :: 0 <= j < |r| ==> r[j] == qs[if j < index then j else j + 1];
    }
  }

  // ---------------------------------------------------------------------
  // Events
  // ---------------------------------------------------------------------

  datatype Event =
    | MainButton
    | ValidateButton
    | EndButton
    | DismissCard(index: int)
    | ValidationFires(draw: Draw)
    | DismissFires(pending: int)

  /**
    A card can be clicked only at an index that has a card.  Timer
    callbacks fire only when scheduled: the validation with a draw the
    shuffle can produce, a removal for one of the pending clicks.
   */
  predicate CanOccur(s: Session, e: Event)
  {
    && (e.DismissCard? ==> 0 <= e.index < |s.questions|)
    && (e.ValidationFires? ==> s.validationPending && ValidDraw(s, e.draw))
    && (e.DismissFires? ==> 0 <= e.pending < |s.dismissals|)
  }

  /**
    A click on card `index` schedules its removal 200 ms later, with the
    index captured at the click.
   */
  function ClickCard(s: Session, index: int): (r: Session)
    ensures r.dismissals == s.dismissals + [index]
    ensures r.questions == s.questions
    ensures r.(dismissals := s.dismissals) == s
  {
    s.(dismissals := s.dismissals + [index])
  }

  /**
    The removal scheduled by pending click `k` runs: the index captured at
    the click is removed from whatever list is current now.
   */
  function RemovalFires(s: Session, k: int): (r: Session)
    requires 0 <= k < |s.dismissals|
    ensures r.questions == DismissQuestion(s.questions, s.dismissals[k])
    ensures |r.dismissals| == |s.dismissals| - 1
    ensures multiset(r.dismissals) + multiset{s.dismissals[k]} == multiset(s.dismissals)
    ensures r.(questions := s.questions, dismissals := s.dismissals) == s
  {
    assert s.dismissals == s.dismissals[..k] + [s.dismissals[k]] + s.dismissals[k + 1..];
    s.(questions := DismissQuestion(s.questions, s.dismissals[k]),
       dismissals := s.dismissals[..k] + s.dismissals[k + 1..])
  }

  /**
    One event on the page.  Once the page is ending no button or card is
    rendered, so those events change nothing; a disabled button changes
    nothing either.  The timer callbacks run regardless.
   */
  function Step(s: Session, e: Event): (r: Session)
    requires CanOccur(s, e)
    ensures s.isEnding ==> r.isEnding
    ensures s.isEnding && !e.ValidationFires? && !e.DismissFires? ==> r == s
    ensures e.ValidationFires? ==> r == CompleteValidation(s, e.draw)
    ensures e.DismissFires? ==> r == RemovalFires(s, e.pending)
  {
    match e
    case MainButton => if s.isEnding then s else PressMain(s)
    case ValidateButton => if !s.isEnding && ValidateEnabled(s) then BeginValidation(s) else s
    case EndButton => if !s.isEnding && EndEnabled(s) then BeginEnding(s) else s
    case DismissCard(i) => if s.isEnding then s else ClickCard(s, i)
    case ValidationFires(d) => CompleteValidation(s, d)
    case DismissFires(k) => RemovalFires(s, k)
  }

  // ---------------------------------------------------------------------
  // Invariant
  // ---------------------------------------------------------------------

  /**
    What holds in every reachable state: the spinner shows exactly while a
    validation callback is pending, the pool is a reordering of the fixed
    questions, and the flagged list holds at most three distinct questions
    from it.
   */
  ghost predicate Inv(s: Session)
  {
    && (s.isValidating <==> s.validationPending)
    && multiset(s.pool) == multiset(MockQuestions)
    && Distinct(s.questions)
    && |s.questions| <= 3
    && forall q :: q in s.questions ==> q in MockQuestions
  }

  lemma MockQuestionsDistinct()
    ensures Distinct(MockQuestions)
  {
  }

  lemma InitialInv()
    ensures Inv(InitialSession)
  {
  }

  /**
    A completed validation flags between one and three questions, all from
    the fixed list and pairwise distinct.
   */
  lemma ValidationFlagsDistinctQuestions(s: Session, d: Draw)
    requires Inv(s)
    requires s.validationPending && ValidDraw(s, d)
    ensures 1 <= |CompleteValidation(s, d).questions| <= 3
    ensures Distinct(CompleteValidation(s, d).questions)
    ensures forall q :: q in CompleteValidation(s, d).questions ==> q in MockQuestions
    ensures multiset(CompleteValidation(s, d).pool) == multiset(MockQuestions)
  {
    assert |s.pool| == |multiset(s.pool)| == |multiset(MockQuestions)| == 5;
    var r := CompleteValidation(s, d);
    MockQuestionsDistinct();
    DistinctPermutation(MockQuestions, d.shuffled);
    DistinctPrefix(d.shuffled, d.count);
    assert |d.shuffled| == 5;
    assert r.questions == d.shuffled[..d.count];
    forall q | q in r.questions
      ensures q in MockQuestions
    {
      assert q in d.shuffled;
      assert q in multiset(d.shuffled);
    }
  }

  /** Every event preserves the invariant. */
  lemma StepPreservesInv(s: Session, e: Event)
    requires Inv(s)
    requires CanOccur(s, e)
    ensures Inv(Step(s, e))
  {
    match e
    case DismissFires(k) =>
      DismissKeepsDistinctSubset(s.questions, s.dismissals[k]);
    case ValidationFires(d) =>
      ValidationFlagsDistinctQuestions(s, d);
    case _ =>
  }

  /** The invariant holds after any sequence of events from the initial page. */
  lemma {:induction false} RunPreservesInv(s: Session, events: seq<Event>)
    requires Inv(s)
    ensures RunDefined(s, events) ==> Inv(Run(s, events))
    decreases |events|
  {
    if |events| > 0 && CanOccur(s, events[0]) {
      StepPreservesInv(s, events[0]);
      RunPreservesInv(Step(s, events[0]), events[1..]);
    }
  }

  /** Every event of `events` could occur in the state it met. */
  predicate RunDefined(s: Session, events: seq<Event>)
    decreases |events|
  {
    |events| == 0 || (CanOccur(s, events[0]) && RunDefined(Step(s, events[0]), events[1..]))
  }

  function Run(s: Session, events: seq<Event>): Session
    requires RunDefined(s, events)
    decreases |events|
  {
    if |events| == 0 then s else Run(Step(s, events[0]), events[1..])
  }

  /** A validation replaces the flagged list: what was flagged before plays no part. */
  lemma ValidationReplaces(s: Session, d: Draw, earlier: seq<string>)
    requires s.validationPending && ValidDraw(s, d)
    ensures CompleteValidation(s, d).questions == CompleteValidation(s.(questions := earlier), d).questions
  {
  }

  /**
    A removal scheduled before End was pressed still runs on the processing
    screen: the clicked question leaves the list even though no card is
    shown any more.
   */
  lemma RemovalAfterEnd(s: Session, i: int)
    requires !s.isEnding && EndEnabled(s) && 0 <= i < |s.questions|
    ensures var s1 := Step(s, DismissCard(i));
      var s2 := Step(s1, EndButton);
      && s2.isEnding
      && 0 <= |s2.dismissals| - 1 < |s2.dismissals|
      && Step(s2, DismissFires(|s2.dismissals| - 1)).isEnding
      && Step(s2, DismissFires(|s2.dismissals| - 1)).questions == s.questions[..i] + s.questions[i + 1..]
  {
  }

  /**
    A removal scheduled before a validation completes applies the index it
    captured to the new list: it removes whichever new question sits at
    that index, not the question that was clicked.
   */
  lemma StaleRemovalHitsNewList(s: Session, i: int, d: Draw)
    requires !s.isEnding && 0 <= i < |s.questions|
    requires s.validationPending && ValidDraw(s, d)
    ensures var s1 := Step(s, DismissCard(i));
      && CanOccur(s1, ValidationFires(d))
      && var s2 := Step(s1, ValidationFires(d));
      && 0 <= |s2.dismissals| - 1 < |s2.dismissals|
      && Step(s2, DismissFires(|s2.dismissals| - 1)).questions == DismissQuestion(s2.questions, i)
      && s2.questions == CompleteValidation(s, d).questions
  {
  }

  // ---------------------------------------------------------------------
  // What is rendered
  // ---------------------------------------------------------------------

  datatype MainLabel = StartLabel | StopLabel

  datatype View =
    | Processing
    | Recorder(cards: seq<string>, main: MainLabel, validateEnabled: bool, endEnabled: bool,
               validating: bool, listening: bool)

  function Render(s: Session): (v: View)
    ensures v.Processing? <==> s.isEnding
    ensures v.Recorder? ==> v.cards == s.questions
    ensures v.Recorder? ==> (v.main == StopLabel <==> s.isRecording)
    ensures v.Recorder? ==> (v.validateEnabled <==> s.isRecording && !s.isValidating)
    ensures v.Recorder? ==> (v.endEnabled <==> s.isRecording)
    ensures v.Recorder? ==> v.validating == s.isValidating && v.listening == s.isRecording
  {
    if s.isEnding then Processing
    else Recorder(s.questions, if s.isRecording then StopLabel else StartLabel,
                  ValidateEnabled(s), EndEnabled(s), s.isValidating, s.isRecording)
  }

  /** The validate button does something exactly when it is shown enabled. */
  lemma ValidateButtonGuard(s: Session)
    ensures Step(s, ValidateButton) != s <==> Render(s).Recorder? && Render(s).validateEnabled
  {
  }

  /** The end button does something exactly when it is shown enabled. */
  lemma EndButtonGuard(s: Session)
    ensures Step(s, EndButton) != s <==> Render(s).Recorder? && Render(s).endEnabled
    ensures Render(s).Recorder? && Render(s).endEnabled ==> Render(Step(s, EndButton)) == Processing
  {
  }

  /** Once the page is ending it stays on the processing screen, whatever happens. */
  lemma {:induction false} EndingIsFinal(s: Session, events: seq<Event>)
    requires s.isEnding
    requires RunDefined(s, events)
    ensures Run(s, events).isEnding
    ensures Render(Run(s, events)) == Processing
    decreases |events|
  {
    if |events| > 0 {
      EndingIsFinal(Step(s, events[0]), events[1..]);
    }
  }

  /** The main button's label names what pressing it does. */
  lemma MainButtonToggles(s: Session)
    requires !s.isEnding
    ensures Render(s).main == StopLabel ==> !Step(s, MainButton).isRecording
    ensures Render(s).main == StartLabel ==> Step(s, MainButton).isRecording
  {
  }
}

=== FILE: filling.dfy ===
/**
  The form-completion page: the OASIS form fixtures, the evidence index that
  links each form field to transcript phrases, the word-by-word highlighting
  of the transcript, the click/clear highlight lifecycle and the overlay of
  edited form values over the auto-filled defaults.
 */
module Filling {
  import opened Text

  // ---------------------------------------------------------------------
  // Fixtures
  // ---------------------------------------------------------------------

  datatype Speaker = Nurse | Patient

  datatype TranscriptEntry = TranscriptEntry(speaker: Speaker, time: string, text: string)

  /** `type: "input"` renders a one-line input, `type: "textarea"` a text area. */
  datatype InputKind = LineInput | TextArea

  datatype Question = Question(id: string, caption: string, value: string, kind: InputKind)

  datatype Section = Section(id: string, title: string, questions: seq<Question>)

  const MockTranscript: seq<TranscriptEntry> := [
    TranscriptEntry(Nurse, "10:15", "Good morning, Mrs. Johnson. How are you feeling today?"),
    TranscriptEntry(Patient, "10:15", "I'm doing okay, but my back has been hurting quite a bit. I'd say it's about a 7 out of 10."),
    TranscriptEntry(Nurse, "10:16", "I'm sorry to hear that. Are you taking your prescribed pain medication?"),
    TranscriptEntry(Patient, "10:16", "Yes, I take the ibuprofen twice a day as you told me, and the blood pressure medicine every morning."),
    TranscriptEntry(Nurse, "10:17", "That's good. Let me check your blood pressure today. Can you sit up straight for me?"),
    TranscriptEntry(Patient, "10:18", "Of course. I've been using my walker to get around the house safely."),
    TranscriptEntry(Nurse, "10:19", "Your blood pressure is 140 over 85 today. How have you been managing with bathing and dressing?"),
    TranscriptEntry(Patient, "10:20", "I can dress myself, but I need help with showering. My daughter comes by twice a week to help.")
  ]

  /** The evidence index: form field id to the transcript phrases that support its answer. */
  const AnswerToTranscript: map<string, seq<string>> := map[
    "age" := ["78"],
    "diagnosis" := ["back has been hurting", "blood pressure"],
    "medications" := ["ibuprofen twice a day", "blood pressure medicine every morning"],
    "allergies" := ["None reported"],
    "emergency_contact" := ["daughter"],
    "mobility" := ["walker to get around the house safely"],
    "adl_bathing" := ["need help with showering", "daughter comes by twice a week"],
    "adl_dressing" := ["I can dress myself"],
    "fall_risk" := ["walker"],
    "cognitive" := ["Alert"],
    "pain_level" := ["7 out of 10"],
    "vital_signs" := ["140 over 85"],
    "wound_care" := ["No wounds"],
    "nutrition" := ["Adequate"],
    "elimination" := ["regular"],
    "home_safety" := ["walker", "daughter"],
    "support_system" := ["daughter comes by twice a week"],
    "equipment" := ["walker"],
    "medication_management" := ["I take the ibuprofen"],
    "emergency_plan" := ["daughter"],
    "goals" := ["back has been hurting"],
    "interventions" := ["pain medication"],
    "education" := ["medication"],
    "next_visit" := ["Follow-up"],
    "physician_communication" := ["blood pressure"]
  ]

  const Demographics: Section := Section("demographics", "Patient Demographics & History", [
    Question("age", "Patient Age", "78", LineInput),
    Question("diagnosis", "Primary Diagnosis", "Hypertension, Chronic back pain", TextArea),
    Question("medications", "Current Medications", "Ibuprofen 400mg BID, Lisinopril 10mg daily", TextArea),
    Question("allergies", "Known Allergies", "None reported", LineInput),
    Question("emergency_contact", "Emergency Contact", "Daughter - Sarah Johnson", LineInput)
  ])

  const FunctionalStatus: Section := Section("functional_status", "Functional Status", [
    Question("mobility", "Mobility Assessment", "Uses walker for ambulation", TextArea),
    Question("adl_bathing", "Bathing", "Requires assistance - daughter helps 2x/week", LineInput),
    Question("adl_dressing", "Dressing", "Independent", LineInput),
    Question("fall_risk", "Fall Risk Assessment", "Moderate - uses walker appropriately", TextArea),
    Question("cognitive", "Cognitive Status", "Alert and oriented x3", LineInput)
  ])

  const ClinicalStatus: Section := Section("clinical_status", "Clinical Status", [
    Question("pain_level", "Pain Assessment", "7/10 chronic back pain", LineInput),
    Question("vital_signs", "Vital Signs", "BP: 140/85, HR: 78, Temp: 98.6Â°F", LineInput),
    Question("wound_care", "Wound/Skin Assessment", "No wounds noted, skin intact", TextArea),
    Question("nutrition", "Nutritional Status", "Adequate oral intake", LineInput),
    Question("elimination", "Bowel/Bladder Function", "Continent, regular bowel movements", LineInput)
  ])

  const SafetyEnvironment: Section := Section("safety_environment", "Safety & Environment", [
    Question("home_safety", "Home Safety Assessment", "Walker available, daughter provides support", TextArea),
    Question("support_system", "Support System", "Daughter visits 2x/week, neighbors check in", TextArea),
    Question("equipment", "DME/Equipment Needs", "Walker in good condition", LineInput),
    Question("medication_management", "Medication Management", "Patient manages independently", LineInput),
    Question("emergency_plan", "Emergency Plan", "Emergency contact information posted", TextArea)
  ])

  const PlanGoals: Section := Section("plan_goals", "Care Plan & Goals", [
    Question("goals", "Patient Goals", "Manage pain, maintain independence", TextArea),
    Question("interventions", "Planned Interventions", "Pain management education, safety assessment", TextArea),
    Question("education", "Patient Education", "Medication compliance, fall prevention", TextArea),
    Question("next_visit", "Next Visit Plan", "Follow-up in 1 week", LineInput),
    Question("physician_communication", "Physician Communication", "Will contact regarding BP elevation", TextArea)
  ])

  const OasisSections: seq<Section> := [Demographics, FunctionalStatus, ClinicalStatus, SafetyEnvironment, PlanGoals]

  /** All questions of a form, section by section, in display order. */
  function AllQuestions(sections: seq<Section>): (r: seq<Question>)
    ensures forall q :: q in r <==> exists i :: 0 <= i < |sections| && q in sections[i].questions
  {
    if |sections| == 0 then []
    else
      var rest := AllQuestions(sections[1..]);
      assert forall i :: 1 <= i < |sections| ==> sections[i] == sections[1..][i - 1];
      sections[0].questions + rest
  }

  function QuestionIds(qs: seq<Question>): (r: seq<string>)
    ensures |r| == |qs|
    ensures forall i :: 0 <= i < |qs| ==> r[i] == qs[i].id
  {
    seq(|qs|, i requires 0 <= i < |qs| => qs[i].id)
  }

  const OasisIds: seq<string> := [
    "age", "diagnosis", "medications", "allergies", "emergency_contact",
    "mobility", "adl_bathing", "adl_dressing", "fall_risk", "cognitive",
    "pain_level", "vital_signs", "wound_care", "nutrition", "elimination",
    "home_safety", "support_system", "equipment", "medication_management", "emergency_plan",
    "goals", "interventions", "education", "next_visit", "physician_communication"
  ]

  lemma QuestionIdsAppend(a: seq<Question>, b: seq<Question>)
    ensures QuestionIds(a + b) == QuestionIds(a) + QuestionIds(b)
  {
  }

  lemma DemographicsIds()
    ensures QuestionIds(Demographics.questions) == OasisIds[0..5]
  {
  }

  lemma FunctionalStatusIds()
    ensures QuestionIds(FunctionalStatus.questions) == OasisIds[5..10]
  {
  }

  lemma ClinicalStatusIds()
    ensures QuestionIds(ClinicalStatus.questions) == OasisIds[10..15]
  {
  }

  lemma SafetyEnvironmentIds()
    ensures QuestionIds(SafetyEnvironment.questions) == OasisIds[15..20]
  {
  }

  lemma PlanGoalsIds()
    ensures QuestionIds(PlanGoals.questions) == OasisIds[20..25]
  {
  }

  lemma FiveSectionIds(ss: seq<Section>)
    requires |ss| == 5
    ensures QuestionIds(AllQuestions(ss)) ==
      QuestionIds(ss[0].questions) + (QuestionIds(ss[1].questions) + (QuestionIds(ss[2].questions) +
      (QuestionIds(ss[3].questions) + QuestionIds(ss[4].questions))))
  {
    var q0, q1, q2, q3, q4 := ss[0].questions, ss[1].questions, ss[2].questions, ss[3].questions, ss[4].questions;
    var s1 := ss[1..];
    var s2 := s1[1..];
    var s3 := s2[1..];
    var s4 := s3[1..];
    assert s1[0] == ss[1] && s2[0] == ss[2] && s3[0] == ss[3] && s4[0] == ss[4];
    assert s4[1..] == [];
    assert AllQuestions(s4) == q4 + [] == q4;
    assert AllQuestions(s3) == q3 + q4;
    assert AllQuestions(s2) == q2 + (q3 + q4);
    assert AllQuestions(s1) == q1 + (q2 + (q3 + q4));
    assert AllQuestions(ss) == q0 + (q1 + (q2 + (q3 + q4)));
    QuestionIdsAppend(q0, q1 + (q2 + (q3 + q4)));
    QuestionIdsAppend(q1, q2 + (q3 + q4));
    QuestionIdsAppend(q2, q3 + q4);
    QuestionIdsAppend(q3, q4);
  }

  lemma FiveSlices<T>(s: seq<T>)
    requires |s| == 25
    ensures s == s[0..5] + (s[5..10] + (s[10..15] + (s[15..20] + s[20..25])))
  {
    assert s[15..] == s[15..20] + s[20..25];
    assert s[10..] == s[10..15] + s[15..];
    assert s[5..] == s[5..10] + s[10..];
    assert s == s[0..5] + s[5..];
  }

  lemma OasisIdsListed()
    ensures QuestionIds(AllQuestions(OasisSections)) == OasisIds
  {
    FiveSectionIds(OasisSections);
    DemographicsIds();
    FunctionalStatusIds();
    ClinicalStatusIds();
    SafetyEnvironmentIds();
    PlanGoalsIds();
    FiveSlices(OasisIds);
  }

  // Distinctness of the 25 ids, a few rows at a time to keep each proof small.

  lemma OasisIdsDistinctRows0To1()
    ensures forall i, j :: 0 <= i < 2 && i < j < |OasisIds| ==> OasisIds[i] != OasisIds[j]
  {
    assert forall j :: 0 < j < |OasisIds| ==> OasisIds[0] != OasisIds[j];
    assert forall j :: 1 < j < |OasisIds| ==> OasisIds[1] != OasisIds[j];
  }

  lemma OasisIdsDistinctRows2To3()
    ensures forall i, j :: 2 <= i < 4 && i < j < |OasisIds| ==> OasisIds[i] != OasisIds[j]
  {
    assert forall j :: 2 < j < |OasisIds| ==> OasisIds[2] != OasisIds[j];
    assert forall j :: 3 < j < |OasisIds| ==> OasisIds[3] != OasisIds[j];
  }

  lemma OasisIdsDistinctRows4To5()
    ensures forall i, j :: 4 <= i < 6 && i < j < |OasisIds| ==> OasisIds[i] != OasisIds[j]
  {
    assert forall j :: 4 < j < |OasisIds| ==> OasisIds[4] != OasisIds[j];
    assert forall j :: 5 < j < |OasisIds| ==> OasisIds[5] != OasisIds[j];
  }

  lemma OasisIdsDistinctRows6To7()
    ensures forall i, j :: 6 <= i < 8 && i < j < |OasisIds| ==> OasisIds[i] != OasisIds[j]
  {
    assert forall j :: 6 < j < |OasisIds| ==> OasisIds[6] != OasisIds[j];
    assert forall j :: 7 < j < |OasisIds| ==> OasisIds[7] != OasisIds[j];
  }

  lemma OasisIdsDistinctRows8To9()
    ensures forall i, j :: 8 <= i < 10 && i < j < |OasisIds| ==> OasisIds[i] != OasisIds[j]
  {
    assert forall j :: 8 < j < |OasisIds| ==> OasisIds[8] != OasisIds[j];
    assert forall j :: 9 < j < |OasisIds| ==> OasisIds[9] != OasisIds[j];
  }

  lemma OasisIdsDistinctRows10To12()
    ensures forall i, j :: 10 <= i < 13 && i < j < |OasisIds| ==> OasisIds[i] != OasisIds[j]
  {
    assert forall j :: 10 < j < |OasisIds| ==> OasisIds[10] != OasisIds[j];
    assert forall j :: 11 < j < |OasisIds| ==> OasisIds[11] != OasisIds[j];
    assert forall j :: 12 < j < |OasisIds| ==> OasisIds[12] != OasisIds[j];
  }

  lemma OasisIdsDistinctRows13To16()
    ensures forall i, j :: 13 <= i < 17 && i < j < |OasisIds| ==> OasisIds[i] != OasisIds[j]
  {
    assert forall j :: 13 < j < |OasisIds| ==> OasisIds[13] != OasisIds[j];
    assert forall j :: 14 < j < |OasisIds| ==> OasisIds[14] != OasisIds[j];
    assert forall j :: 15 < j < |OasisIds| ==> OasisIds[15] != OasisIds[j];
    assert forall j :: 16 < j < |OasisIds| ==> OasisIds[16] != OasisIds[j];
  }

  lemma OasisIdsDistinctRows17To24()
    ensures forall i, j :: 17 <= i < 25 && i < j < |OasisIds| ==> OasisIds[i] != OasisIds[j]
  {
    assert forall j :: 17 < j < |OasisIds| ==> OasisIds[17] != OasisIds[j];
    assert forall j :: 18 < j < |OasisIds| ==> OasisIds[18] != OasisIds[j];
    assert forall j :: 19 < j < |OasisIds| ==> OasisIds[19] != OasisIds[j];
    assert forall j :: 20 < j < |OasisIds| ==> OasisIds[20] != OasisIds[j];
    assert forall j :: 21 < j < |OasisIds| ==> OasisIds[21] != OasisIds[j];
    assert forall j :: 22 < j < |OasisIds| ==> OasisIds[22] != OasisIds[j];
    assert forall j :: 23 < j < |OasisIds| ==> OasisIds[23] != OasisIds[j];
  }

  /** No two questions of the form share an id. */
  lemma OasisIdsDistinct()
    ensures Distinct(OasisIds)
    ensures Distinct(QuestionIds(AllQuestions(OasisSections)))
  {
    OasisIdsListed();
    OasisIdsDistinctRows0To1();
    OasisIdsDistinctRows2To3();
    OasisIdsDistinctRows4To5();
    OasisIdsDistinctRows6To7();
    OasisIdsDistinctRows8To9();
    OasisIdsDistinctRows10To12();
    OasisIdsDistinctRows13To16();
    OasisIdsDistinctRows17To24();
  }

  lemma OasisIndexKeys()
    ensures AnswerToTranscript.Keys == set id | id in OasisIds
  {
  }

  lemma OasisIndexNonEmpty()
    ensures forall id :: id in AnswerToTranscript ==> |AnswerToTranscript[id]| > 0
  {
  }

  // ---------------------------------------------------------------------
  // Highlighting
  // ---------------------------------------------------------------------

  /**
    The bidirectional, case-insensitive test of one transcript word against
    one evidence phrase: either one, lower-cased, includes the other.
   */
  predicate Matches(word: string, phrase: string)
  {
    Contains(Lower(phrase), Lower(word)) || Contains(Lower(word), Lower(phrase))
  }

  /** `phrases.some(phrase => Matches(word, phrase))`. */
  function Highlighted(word: string, phrases: seq<string>): (r: bool)
    ensures r <==> exists i :: 0 <= i < |phrases| && Matches(word, phrases[i])
  {
    if |phrases| == 0 then false
    else
      var rest := Highlighted(word, phrases[1..]);
      assert forall i :: 1 <= i < |phrases| ==> phrases[i] == phrases[1..][i - 1];
      Matches(word, phrases[0]) || rest
  }

  /** The test does not care which side is the word and which the phrase. */
  lemma MatchesSymmetric(word: string, phrase: string)
    ensures Matches(word, phrase) <==> Matches(phrase, word)
  {
  }

  /** A word is highlighted exactly when it matches some active phrase. */
  lemma HighlightedIff(word: string, phrases: seq<string>)
    ensures Highlighted(word, phrases) <==> exists p :: p in phrases && Matches(word, p)
  {
  }

  /** More phrases never un-highlight a word, wherever the new phrases go. */
  lemma HighlightMonotone(word: string, phrases: seq<string>, more: seq<string>)
    requires Highlighted(word, phrases)
    ensures Highlighted(word, phrases + more)
    ensures Highlighted(word, more + phrases)
  {
    var i :| 0 <= i < |phrases| && Matches(word, phrases[i]);
    assert (phrases + more)[i] == phrases[i];
    assert (more + phrases)[|more| + i] == phrases[i];
  }

  /** The empty piece left by a doubled, leading or trailing space is highlighted whenever any phrase is active. */
  lemma EmptyWordHighlighted(phrases: seq<string>)
    requires |phrases| > 0
    ensures Highlighted("", phrases)
  {
    ContainsEmpty(Lower(phrases[0]));
  }

  lemma PainEvidence()
    ensures AnswerToTranscript["pain_level"] == ["7 out of 10"]
  {
  }

  /** A word the phrase includes at position `at` is highlighted by that phrase. */
  lemma WordInPhraseHighlighted(word: string, phrase: string, at: nat)
    requires Lower(phrase) == phrase && Lower(word) == word
    requires at + |word| <= |phrase| && phrase[at..at + |word|] == word
    ensures Highlighted(word, [phrase])
  {
    assert OccursAt(phrase, word, at);
    assert Matches(word, phrase);
  }

  lemma WordsOfPainPhraseHighlighted()
    ensures Highlighted("7", ["7 out of 10"])
    ensures Highlighted("out", ["7 out of 10"])
    ensures Highlighted("of", ["7 out of 10"])
  {
    var p := "7 out of 10";
    LowerNoUpper(p);
    LowerNoUpper("7");
    LowerNoUpper("out");
    LowerNoUpper("of");
    WordInPhraseHighlighted("7", p, 0);
    WordInPhraseHighlighted("out", p, 2);
    WordInPhraseHighlighted("of", p, 6);
  }

  /** Under a one-phrase list, a word is highlighted exactly when it matches that phrase. */
  lemma HighlightedSingle(word: string, phrase: string)
    ensures Highlighted(word, [phrase]) <==> Matches(word, phrase)
  {
    assert [phrase][0] == phrase;
  }

  /** A word with a character the phrase lacks, and shorter than the phrase, matches it in neither direction. */
  lemma NoMatchByCharAndLength(word: string, phrase: string, c: char)
    requires c in Lower(word) && c !in Lower(phrase)
    requires |word| < |phrase|
    ensures !Matches(word, phrase)
  {
    if Contains(Lower(phrase), Lower(word)) {
      ContainsChars(Lower(phrase), Lower(word), c);
    }
    if Contains(Lower(word), Lower(phrase)) {
      ContainsLength(Lower(word), Lower(phrase));
    }
  }

  lemma NumberWithStopNotHighlighted()
    ensures !Highlighted("10.", ["7 out of 10"])
  {
    var p := "7 out of 10";
    LowerNoUpper(p);
    assert Lower("10.")[2] == '.';
    NoMatchByCharAndLength("10.", p, '.');
    HighlightedSingle("10.", p);
  }


  lemma PainTailSplit()
    ensures Split("7 out of 10.") == ["7", "out", "of", "10."]
  {
    var ws := ["7", "out", "of", "10."];
    assert forall k :: 0 <= k < |ws| ==> SpaceFree(ws[k]);
    SplitJoin(ws);
    assert Join(ws) == "7 out of 10.";
  }

  /** The patient's second line, up to the space before the pain score, and the score itself. */
  lemma PainAnswerEnds()
    ensures MockTranscript[1].text ==
      "I'm doing okay, but my back has been hurting quite a bit. I'd say it's about a" + " " + "7 out of 10."
  {
  }

  /** The last four pieces of any line ending in " 7 out of 10.". */
  lemma PainScoreWords(head: string)
    ensures var ws := Split(head + " " + "7 out of 10.");
      |ws| >= 4 && ws[|ws| - 4] == "7" && ws[|ws| - 3] == "out" && ws[|ws| - 2] == "of" && ws[|ws| - 1] == "10."
  {
    SplitAppend(head, "7 out of 10.");
    PainTailSplit();
  }

  lemma PainAnswerWords()
    ensures var ws := Split(MockTranscript[1].text);
      |ws| >= 4 && ws[|ws| - 4] == "7" && ws[|ws| - 3] == "out" && ws[|ws| - 2] == "of" && ws[|ws| - 1] == "10."
  {
    PainAnswerEnds();
    PainScoreWords("I'm doing okay, but my back has been hurting quite a bit. I'd say it's about a");
  }

  /**
    With the pain-level evidence active, the patient's line "... about a 7
    out of 10." ends in the pieces "7", "out", "of" and "10.": the first
    three are highlighted but "10." is not, because the split keeps the
    full stop attached to the number and "10." is in neither direction a
    substring of "7 out of 10".  `RenderLine` marks each span exactly as
    its piece is marked here.
   */
  lemma PainLevelExample()
    ensures var ws := Split(MockTranscript[1].text);
      |ws| >= 4 && ws[|ws| - 4] == "7" && ws[|ws| - 3] == "out" && ws[|ws| - 2] == "of" && ws[|ws| - 1] == "10."
    ensures Highlighted("7", AnswerToTranscript["pain_level"])
    ensures Highlighted("out", AnswerToTranscript["pain_level"])
    ensures Highlighted("of", AnswerToTranscript["pain_level"])
    ensures !Highlighted("10.", AnswerToTranscript["pain_level"])
  {
    PainAnswerWords();
    PainEvidence();
    WordsOfPainPhraseHighlighted();
    NumberWithStopNotHighlighted();
  }

  /** One displayed piece of a transcript line. */
  datatype Span = Span(text: string, highlighted: bool)

  /**
    A rendered transcript line: the raw text when no phrase is active,
    otherwise one span per piece of `text.split(' ')`.
   */
  datatype Rendered = Plain(text: string) | Spans(spans: seq<Span>)

  function ConcatSpans(spans: seq<Span>): string
  {
    if |spans| == 0 then "" else spans[0].text + ConcatSpans(spans[1..])
  }

  /** The text a reader sees for a rendered line. */
  function Shown(r: Rendered): string
  {
    match r
    case Plain(t) => t
    case Spans(spans) => ConcatSpans(spans)
  }

  /** Span `i` holds piece `i` and, except for the last span, the separating space. */
  function WordSpans(pieces: seq<string>, phrases: seq<string>): (r: seq<Span>)
    ensures |r| == |pieces|
    ensures forall i :: 0 <= i < |r| ==> r[i].text == pieces[i] + (if i < |r| - 1 then " " else "")
    ensures forall i :: 0 <= i < |r| ==>
      (r[i].highlighted <==> exists p :: p in phrases && Matches(pieces[i], p))
  {
    seq(|pieces|, i requires 0 <= i < |pieces| =>
      Span(pieces[i] + (if i < |pieces| - 1 then " " else ""), Highlighted(pieces[i], phrases)))
  }

  lemma {:induction false} ConcatWordSpans(pieces: seq<string>, phrases: seq<string>)
    requires |pieces| >= 1
    ensures ConcatSpans(WordSpans(pieces, phrases)) == Join(pieces)
    decreases |pieces|
  {
    var ws := WordSpans(pieces, phrases);
    if |pieces| == 1 {
      assert ws[1..] == [];
    } else {
      assert ws[1..] == WordSpans(pieces[1..], phrases);
      ConcatWordSpans(pieces[1..], phrases);
    }
  }

  /**
    Rendering one transcript line against the active phrase list.  The text
    read back is always the line itself; with no phrase active it is one
    unhighlighted block, otherwise there is one span per space plus one and
    a span is highlighted exactly when its word matches some phrase.
   */
  function RenderLine(text: string, phrases: seq<string>): (r: Rendered)
    ensures Shown(r) == text
    ensures |phrases| == 0 <==> r.Plain?
    ensures r.Spans? ==> |r.spans| == CountSpaces(text) + 1
    ensures r.Spans? ==> forall i :: 0 <= i < |r.spans| ==>
      r.spans[i].text == Split(text)[i] + (if i < |r.spans| - 1 then " " else "")
    ensures r.Spans? ==> forall i :: 0 <= i < |r.spans| ==>
      (r.spans[i].highlighted <==> exists p :: p in phrases && Matches(Split(text)[i], p))
  {
    if |phrases| > 0 then
      var pieces := Split(text);
      ConcatWordSpans(pieces, phrases);
      JoinSplit(text);
      Spans(WordSpans(pieces, phrases))
    else
      Plain(text)
  }

  /** With no active phrase nothing in the transcript is highlighted. */
  lemma IdleRenderHighlightsNothing(text: string)
    ensures RenderLine(text, []) == Plain(text)
  {
  }

  /** Adding phrases only ever adds highlighted spans. */
  lemma RenderMonotone(text: string, phrases: seq<string>, more: seq<string>, i: int)
    requires 0 <= i < |Split(text)|
    requires Highlighted(Split(text)[i], phrases)
    ensures RenderLine(text, phrases).Spans? && RenderLine(text, phrases).spans[i].highlighted
    ensures RenderLine(text, phrases + more).Spans?
    ensures RenderLine(text, phrases + more).spans[i].highlighted
  {
    var k :| 0 <= k < |phrases| && Matches(Split(text)[i], phrases[k]);
    assert phrases[k] in phrases && phrases[k] in phrases + more;
  }

  /** The transcript panel: every entry rendered, each reading back as its own text. */
  function RenderTranscript(entries: seq<TranscriptEntry>, phrases: seq<string>): (r: seq<Rendered>)
    ensures |r| == |entries|
    ensures forall i :: 0 <= i < |entries| ==> Shown(r[i]) == entries[i].text
    ensures forall i :: 0 <= i < |entries| ==> (r[i].Plain? <==> |phrases| == 0)
    ensures forall i :: 0 <= i < |entries| && r[i].Spans? ==> |r[i].spans| == |Split(entries[i].text)|
    ensures forall i, k :: 0 <= i < |entries| && r[i].Spans? && 0 <= k < |r[i].spans| ==>
      r[i].spans[k].text == Split(entries[i].text)[k] + (if k < |r[i].spans| - 1 then " " else "")
    ensures forall i, k :: 0 <= i < |entries| && r[i].Spans? && 0 <= k < |r[i].spans| ==>
      (r[i].spans[k].highlighted <==> exists p :: p in phrases && Matches(Split(entries[i].text)[k], p))
  {
    seq(|entries|, i requires 0 <= i < |entries| => RenderLine(entries[i].text, phrases))
  }

  // ---------------------------------------------------------------------
  // Page state: the highlight lifecycle and the edited form values
  // ---------------------------------------------------------------------

  /**
    The page state: the active phrase list, how many clear callbacks are
    still scheduled, and the values the user has typed (`formData`).
   */
  datatype Page = Page(phrases: seq<string>, pendingClears: nat, formData: map<string, string>)

  const InitialPage: Page := Page([], 0, map[])

  /** `answerToTranscriptMap[id] || []`. */
  function EvidenceFor(id: string): (r: seq<string>)
    ensures id in AnswerToTranscript ==> r == AnswerToTranscript[id]
    ensures id !in AnswerToTranscript ==> r == []
  {
    if id in AnswerToTranscript then AnswerToTranscript[id] else []
  }

  /** Clicking a field: its evidence replaces the active list and one more clear is scheduled. */
  function Click(p: Page, id: string): (r: Page)
    ensures r.phrases == EvidenceFor(id)
    ensures r.pendingClears == p.pendingClears + 1
    ensures r.formData == p.formData
  {
    p.(phrases := EvidenceFor(id), pendingClears := p.pendingClears + 1)
  }

  /** A scheduled clear fires: the active list becomes empty, whoever set it. */
  function ClearFires(p: Page): (r: Page)
    requires p.pendingClears > 0
    ensures r.phrases == []
    ensures r.pendingClears == p.pendingClears - 1
    ensures r.formData == p.formData
  {
    p.(phrases := [], pendingClears := p.pendingClears - 1)
  }

  /** The list after a click does not depend on what was active before: no merging. */
  lemma ClickReplaces(p: Page, q: Page, id: string)
    ensures Click(p, id).phrases == Click(q, id).phrases
  {
  }

  /**
    Clicks are not cancelled: after clicking `a` and then `b`, the clear
    scheduled by `a` fires first and empties `b`'s list while `b`'s own
    clear is still pending.
   */
  lemma StaleClearEmptiesNewerList(p: Page, a: string, b: string)
    ensures Click(Click(p, a), b).phrases == EvidenceFor(b)
    ensures ClearFires(Click(Click(p, a), b)).phrases == []
    ensures ClearFires(Click(Click(p, a), b)).pendingClears == p.pendingClears + 1
  {
  }

  /** Clicking any question of the form activates a non-empty list, so highlighting switches on. */
  lemma ClickOnFormFieldHighlights(p: Page, i: nat, q: Question)
    requires i < |OasisSections| && q in OasisSections[i].questions
    ensures |Click(p, q.id).phrases| > 0
    ensures forall text :: RenderLine(text, Click(p, q.id).phrases).Spans?
  {
    var all := AllQuestions(OasisSections);
    assert OasisSections[i] in OasisSections;
    assert q in all;
    var k :| 0 <= k < |all| && all[k] == q;
    OasisIdsListed();
    assert q.id == OasisIds[k];
    OasisIndexKeys();
    OasisIndexNonEmpty();
  }

  /**
    Every highlight is eventually cleared: while a phrase list is active,
    at least one clear callback is still scheduled.
   */
  predicate PageInv(p: Page)
  {
    |p.phrases| > 0 ==> p.pendingClears > 0
  }

  lemma InitialPageInv()
    ensures PageInv(InitialPage)
  {
  }

  lemma ClickKeepsPageInv(p: Page, id: string)
    ensures PageInv(Click(p, id))
  {
  }

  lemma ClearKeepsPageInv(p: Page)
    requires PageInv(p) && p.pendingClears > 0
    ensures PageInv(ClearFires(p))
  {
  }

  lemma EditKeepsPageInv(p: Page, id: string, value: string)
    requires PageInv(p)
    ensures PageInv(Edit(p, id, value))
  {
  }

  /** What can happen on the page: a click on a field, a scheduled clear firing, or an edit. */
  datatype PageEvent =
    | ClickField(id: string)
    | ClearTimer
    | EditField(id: string, value: string)

  /** A clear fires only when one is scheduled. */
  predicate PageCanOccur(p: Page, e: PageEvent)
  {
    e.ClearTimer? ==> p.pendingClears > 0
  }

  function PageStep(p: Page, e: PageEvent): (r: Page)
    requires PageCanOccur(p, e)
    ensures e.ClickField? ==> r.phrases == EvidenceFor(e.id) && r.pendingClears == p.pendingClears + 1
    ensures e.ClearTimer? ==> r.phrases == [] && r.pendingClears == p.pendingClears - 1
    ensures e.EditField? ==> r.phrases == p.phrases && r.pendingClears == p.pendingClears
  {
    match e
    case ClickField(id) => Click(p, id)
    case ClearTimer => ClearFires(p)
    case EditField(id, value) => Edit(p, id, value)
  }

  predicate PageRunDefined(p: Page, events: seq<PageEvent>)
    decreases |events|
  {
    |events| == 0 || (PageCanOccur(p, events[0]) && PageRunDefined(PageStep(p, events[0]), events[1..]))
  }

  function PageRun(p: Page, events: seq<PageEvent>): Page
    requires PageRunDefined(p, events)
    decreases |events|
  {
    if |events| == 0 then p else PageRun(PageStep(p, events[0]), events[1..])
  }

  /** After any sequence of clicks, clears and edits from the first render, an active highlight still has a clear to come. */
  lemma {:induction false} PageRunKeepsInv(p: Page, events: seq<PageEvent>)
    requires PageInv(p)
    requires PageRunDefined(p, events)
    ensures PageInv(PageRun(p, events))
    decreases |events|
  {
    if |events| > 0 {
      var e := events[0];
      match e {
        case ClickField(id) => ClickKeepsPageInv(p, id);
        case ClearTimer => ClearKeepsPageInv(p);
        case EditField(id, value) => EditKeepsPageInv(p, id, value);
      }
      PageRunKeepsInv(PageStep(p, e), events[1..]);
    }
  }

  /** `setFormData(prev => ({ ...prev, [id]: value }))`. */
  function UpdateFormData(formData: map<string, string>, id: string, value: string): (r: map<string, string>)
    ensures id in r && r[id] == value
    ensures forall k :: k != id ==> (k in r <==> k in formData)
    ensures forall k :: k != id && k in formData ==> r[k] == formData[k]
  {
    formData[id := value]
  }

  function Edit(p: Page, id: string, value: string): (r: Page)
    ensures r.formData == UpdateFormData(p.formData, id, value)
    ensures r.phrases == p.phrases && r.pendingClears == p.pendingClears
  {
    p.(formData := UpdateFormData(p.formData, id, value))
  }

  /** `formData[q.id] || q.value`: an absent or empty edited value shows the auto-filled default. */
  function DisplayedValue(formData: map<string, string>, q: Question): (r: string)
    ensures q.id in formData && formData[q.id] != "" ==> r == formData[q.id]
    ensures r == q.value || (q.id in formData && r == formData[q.id] && r != "")
    ensures r == "" ==> q.value == ""
  {
    if q.id in formData && formData[q.id] != "" then formData[q.id] else q.value
  }

  /** Editing a field shows the new value, unless it is empty, in which case the default comes back. */
  lemma DisplayAfterEdit(formData: map<string, string>, q: Question, value: string)
    ensures DisplayedValue(UpdateFormData(formData, q.id, value), q) == (if value == "" then q.value else value)
  {
  }

  /** Editing one field never changes what another field displays. */
  lemma DisplayOthersUnchanged(formData: map<string, string>, q: Question, id: string, value: string)
    requires id != q.id
    ensures DisplayedValue(UpdateFormData(formData, id, value), q) == DisplayedValue(formData, q)
  {
  }

  lemma OasisDefaultsNonEmpty(i: nat)
    requires i < |OasisSections|
    ensures forall q :: q in OasisSections[i].questions ==> q.value != ""
  {
    var qs := OasisSections[i].questions;
    assert |qs| == 5;
    assert qs[0].value != "" && qs[1].value != "" && qs[2].value != "" && qs[3].value != "" && qs[4].value != "";
  }

  /** No field of any section can be shown empty: every default is non-empty. */
  lemma DisplayedNeverEmpty(formData: map<string, string>, i: nat, q: Question)
    requires i < |OasisSections| && q in OasisSections[i].questions
    ensures DisplayedValue(formData, q) != ""
  {
    OasisDefaultsNonEmpty(i);
  }
}

=== FILE: forms.dfy ===
/**
  The submitted-forms page: the search and status filter over the list of
  submitted assessments, the status badge, the count badge and the
  empty-state card.
 */
module Forms {
  import opened Text

  datatype FormRecord = FormRecord(
    id: string,
    patientName: string,
    visitDate: string,
    submitDate: string,
    status: string,
    visitType: string,
    completionTime: string)

  const MockForms: seq<FormRecord> := [
    FormRecord("OASIS-001", "Margaret Johnson", "2024-01-15", "2024-01-15", "Completed", "Initial Assessment", "45 min"),
    FormRecord("OASIS-002", "Robert Chen", "2024-01-14", "2024-01-14", "Completed", "Follow-up", "30 min"),
    FormRecord("OASIS-003", "Dorothy Williams", "2024-01-12", "2024-01-13", "Completed", "Discharge Assessment", "38 min"),
    FormRecord("OASIS-004", "James Martinez", "2024-01-10", "2024-01-10", "Pending Review", "Initial Assessment", "42 min"),
    FormRecord("OASIS-005", "Helen Davis", "2024-01-08", "2024-01-08", "Completed", "Follow-up", "25 min")
  ]

  /** The values offered by the status drop-down; the page starts on "all". */
  const StatusOptions: seq<string> := ["all", "completed", "pending", "draft"]

  // ---------------------------------------------------------------------
  // The filter
  // ---------------------------------------------------------------------

  /** Case-insensitive substring search on the patient name or the form id. */
  predicate MatchesSearch(f: FormRecord, term: string)
  {
    Contains(Lower(f.patientName), Lower(term)) || Contains(Lower(f.id), Lower(term))
  }

  /** "all" admits every status; any other value is a case-insensitive substring test on the status. */
  predicate MatchesStatus(f: FormRecord, statusFilter: string)
  {
    statusFilter == "all" || Contains(Lower(f.status), Lower(statusFilter))
  }

  predicate Kept(f: FormRecord, term: string, statusFilter: string)
  {
    MatchesSearch(f, term) && MatchesStatus(f, statusFilter)
  }

  /** `a` is `b` with some elements left out and the rest in their original order. */
  predicate IsSubsequence<T(==)>(a: seq<T>, b: seq<T>)
    decreases |b|
  {
    |a| == 0 || (|b| > 0 && ((a[0] == b[0] && IsSubsequence(a[1..], b[1..])) || IsSubsequence(a, b[1..])))
  }

  /** `forms.filter(...)`: the kept forms, in their original order. */
  function FilterForms(forms: seq<FormRecord>, term: string, statusFilter: string): (r: seq<FormRecord>)
    ensures IsSubsequence(r, forms)
    ensures forall f :: f in r <==> f in forms && Kept(f, term, statusFilter)
    ensures forall f :: multiset(r)[f] == if Kept(f, term, statusFilter) then multiset(forms)[f] else 0
    decreases |forms|
  {
    if |forms| == 0 then []
    else
      var rest := FilterForms(forms[1..], term, statusFilter);
      assert forms == [forms[0]] + forms[1..];
      assert multiset(forms) == multiset{forms[0]} + multiset(forms[1..]);
      if Kept(forms[0], term, statusFilter) then
        var r := [forms[0]] + rest;
        assert r[1..] == rest;
        assert multiset(r) == multiset{forms[0]} + multiset(rest);
        r
      else
        rest
  }

  /** A kept first form heads the result, followed by the filtered rest. */
  lemma FilterKeepsHead(forms: seq<FormRecord>, term: string, statusFilter: string)
    requires |forms| > 0 && Kept(forms[0], term, statusFilter)
    ensures FilterForms(forms, term, statusFilter) == [forms[0]] + FilterForms(forms[1..], term, statusFilter)
  {
  }

  /** An empty search term matches every form. */
  lemma EmptySearchMatchesAll(f: FormRecord)
    ensures MatchesSearch(f, "")
  {
    ContainsEmpty(Lower(f.patientName));
  }

  /** With an empty search term and the "all" status, nothing is filtered out. */
  lemma {:induction false} UnfilteredListIsComplete(forms: seq<FormRecord>)
    ensures FilterForms(forms, "", "all") == forms
    decreases |forms|
  {
    if |forms| > 0 {
      EmptySearchMatchesAll(forms[0]);
      FilterKeepsHead(forms, "", "all");
      UnfilteredListIsComplete(forms[1..]);
      assert forms == [forms[0]] + forms[1..];
    }
  }

  /** A form that matches a longer search term matches every prefix of it. */
  lemma SearchPrefixMatches(f: FormRecord, term: string, more: string)
    requires MatchesSearch(f, term + more)
    ensures MatchesSearch(f, term)
  {
    LowerAppend(term, more);
    if Contains(Lower(f.patientName), Lower(term + more)) {
      ContainsPrefixOfNeedle(Lower(f.patientName), Lower(term), Lower(more));
    } else {
      ContainsPrefixOfNeedle(Lower(f.id), Lower(term), Lower(more));
    }
  }

  /** Typing more characters into the search box only ever narrows the list. */
  lemma {:induction false} TypingNarrows(forms: seq<FormRecord>, term: string, more: string, statusFilter: string)
    ensures IsSubsequence(FilterForms(forms, term + more, statusFilter), FilterForms(forms, term, statusFilter))
    decreases |forms|
  {
    if |forms| > 0 {
      var longer := FilterForms(forms, term + more, statusFilter);
      var shorter := FilterForms(forms, term, statusFilter);
      var longerRest := FilterForms(forms[1..], term + more, statusFilter);
      var shorterRest := FilterForms(forms[1..], term, statusFilter);
      TypingNarrows(forms[1..], term, more, statusFilter);
      if Kept(forms[0], term + more, statusFilter) {
        SearchPrefixMatches(forms[0], term, more);
        assert longer == [forms[0]] + longerRest;
        assert shorter == [forms[0]] + shorterRest;
        assert longer[1..] == longerRest && shorter[1..] == shorterRest;
      } else if Kept(forms[0], term, statusFilter) {
        assert shorter == [forms[0]] + shorterRest;
        assert shorter[1..] == shorterRest;
      }
    }
  }

  /** Filtering an already filtered list again changes nothing. */
  lemma {:induction false} FilterIdempotent(forms: seq<FormRecord>, term: string, statusFilter: string)
    ensures FilterForms(FilterForms(forms, term, statusFilter), term, statusFilter) == FilterForms(forms, term, statusFilter)
    decreases |forms|
  {
    if |forms| > 0 {
      FilterIdempotent(forms[1..], term, statusFilter);
      var r := FilterForms(forms, term, statusFilter);
      if Kept(forms[0], term, statusFilter) {
        assert r[0] == forms[0] && r[1..] == FilterForms(forms[1..], term, statusFilter);
      }
    }
  }

  /** "pending" admits the "Pending Review" status. */
  lemma PendingAdmitsPendingReview(f: FormRecord)
    requires f.status == "Pending Review"
    ensures MatchesStatus(f, "pending")
  {
    var s := Lower(f.status);
    assert s == "pending review";
    assert s[..7] == "pending";
    LowerNoUpper("pending");
    assert OccursAt(s, "pending", 0);
  }

  /** Neither status that occurs among the submitted forms contains the letter that "draft" needs. */
  lemma MockStatusesLackF(f: FormRecord)
    requires f in MockForms
    ensures 'f' !in Lower(f.status)
  {
    assert f.status == "Completed" || f.status == "Pending Review";
  }

  /** A status filter that admits none of the forms leaves an empty list. */
  lemma NoStatusMatchEmptiesList(forms: seq<FormRecord>, term: string, statusFilter: string)
    requires forall f :: f in forms ==> !MatchesStatus(f, statusFilter)
    ensures FilterForms(forms, term, statusFilter) == []
  {
  }

  /** The "draft" filter admits none of the submitted forms, whatever the search term. */
  lemma DraftFilterIsEmpty(term: string)
    ensures FilterForms(MockForms, term, "draft") == []
  {
    LowerNoUpper("draft");
    forall f | f in MockForms
      ensures !MatchesStatus(f, "draft")
    {
      MockStatusesLackF(f);
      if Contains(Lower(f.status), "draft") {
        ContainsChars(Lower(f.status), "draft", 'f');
      }
    }
    NoStatusMatchEmptiesList(MockForms, term, "draft");
  }

  /** A status filter whose lower-cased text has a letter the lower-cased status lacks admits nothing. */
  lemma MissingLetterRejects(f: FormRecord, statusFilter: string, c: char)
    requires c in Lower(statusFilter) && c !in Lower(f.status)
    ensures statusFilter != "all" ==> !MatchesStatus(f, statusFilter)
  {
    if Contains(Lower(f.status), Lower(statusFilter)) {
      ContainsChars(Lower(f.status), Lower(statusFilter), c);
    }
  }

  lemma CompletedAdmitsCompleted(f: FormRecord)
    requires f.status == "Completed"
    ensures MatchesStatus(f, "completed")
  {
    LowerNoUpper("completed");
    assert Lower(f.status) == "completed";
    assert OccursAt(Lower(f.status), Lower("completed"), 0);
  }

  lemma CompletedRejectsPending(f: FormRecord)
    requires f.status == "Completed"
    ensures !MatchesStatus(f, "pending")
  {
    assert 'g' !in Lower(f.status);
    assert Lower("pending")[6] == 'g';
    MissingLetterRejects(f, "pending", 'g');
  }

  lemma PendingRejectsCompleted(f: FormRecord)
    requires f.status == "Pending Review"
    ensures !MatchesStatus(f, "completed")
  {
    assert 'c' !in Lower(f.status);
    assert Lower("completed")[0] == 'c';
    MissingLetterRejects(f, "completed", 'c');
  }

  /** What one value of the status drop-down admits, for the two statuses the submitted forms carry. */
  lemma StatusOptionAdmits(f: FormRecord, o: string)
    requires f.status == "Completed" || f.status == "Pending Review"
    requires o == "all" || o == "completed" || o == "pending" || o == "draft"
    ensures MatchesStatus(f, o) <==>
      o == "all" || (o == "completed" && f.status == "Completed") || (o == "pending" && f.status == "Pending Review")
  {
    if o == "draft" {
      assert 'f' !in Lower(f.status);
      assert Lower("draft")[3] == 'f';
      MissingLetterRejects(f, "draft", 'f');
    } else if f.status == "Completed" {
      CompletedAdmitsCompleted(f);
      CompletedRejectsPending(f);
    } else {
      PendingAdmitsPendingReview(f);
      PendingRejectsCompleted(f);
    }
  }

  /**
    What each value of the status drop-down admits among the submitted
    forms: "all" everything, "completed" exactly the completed ones,
    "pending" exactly the one pending review, and "draft" nothing.
   */
  lemma StatusOptionsOnMockForms(f: FormRecord)
    requires f in MockForms
    ensures forall o :: o in StatusOptions ==>
      (MatchesStatus(f, o) <==>
        o == "all" || (o == "completed" && f.status == "Completed") || (o == "pending" && f.status == "Pending Review"))
  {
    assert f.status == "Completed" || f.status == "Pending Review";
    forall o | o in StatusOptions
      ensures MatchesStatus(f, o) <==>
        o == "all" || (o == "completed" && f.status == "Completed") || (o == "pending" && f.status == "Pending Review")
    {
      StatusOptionAdmits(f, o);
    }
  }

  // ---------------------------------------------------------------------
  // Badges and the list view
  // ---------------------------------------------------------------------

  datatype BadgeVariant = DefaultBadge | SecondaryBadge | OutlineBadge

  /** The status badge: a fixed table of three statuses with "outline" for anything else. */
  function StatusBadge(status: string): (r: BadgeVariant)
    ensures r == DefaultBadge <==> status == "Completed"
    ensures r == SecondaryBadge <==> status == "Pending Review"
    ensures r == OutlineBadge <==> status != "Completed" && status != "Pending Review"
  {
    if status == "Completed" then DefaultBadge
    else if status == "Pending Review" then SecondaryBadge
    else OutlineBadge
  }

  /** What the page shows: the count badge, the table rows, and whether the "No forms found" card appears. */
  datatype ListView = ListView(count: nat, rows: seq<FormRecord>, showsEmptyState: bool)

  function RenderList(forms: seq<FormRecord>, term: string, statusFilter: string): (v: ListView)
    ensures v.count == |v.rows|
    ensures v.showsEmptyState <==> v.count == 0
    ensures IsSubsequence(v.rows, forms)
    ensures forall f :: f in v.rows <==> f in forms && Kept(f, term, statusFilter)
    ensures forall f :: multiset(v.rows)[f] == if Kept(f, term, statusFilter) then multiset(forms)[f] else 0
    ensures v.rows == FilterForms(forms, term, statusFilter)
  {
    var rows := FilterForms(forms, term, statusFilter);
    ListView(|rows|, rows, |rows| == 0)
  }

  /** The empty-state card appears iff no form passes the filter. */
  lemma EmptyStateIffNothingKept(forms: seq<FormRecord>, term: string, statusFilter: string)
    ensures RenderList(forms, term, statusFilter).showsEmptyState <==>
      forall f :: f in forms ==> !Kept(f, term, statusFilter)
  {
    var v := RenderList(forms, term, statusFilter);
    if !v.showsEmptyState {
      assert v.rows[0] in v.rows;
    }
  }
}

=== FILE: text.dfy ===
/**
  String helpers shared by the pages: ASCII lower-casing (`toLowerCase`),
  substring search (`includes`), splitting on a single space (`split(' ')`)
  and the matching join.  Strings are `seq<char>`.
 */
module Text {

  /** `toLowerCase` restricted to ASCII: 'A'..'Z' map to 'a'..'z', all else is kept. */
  function LowerChar(c: char): char
  {
    if 'A' <= c <= 'Z' then (c as int + 32) as char else c
  }

  function Lower(s: string): (r: string)
    ensures |r| == |s|
    ensures forall i :: 0 <= i < |s| ==> r[i] == LowerChar(s[i])
  {
    seq(|s|, i requires 0 <= i < |s| => LowerChar(s[i]))
  }

  /** A string without upper-case ASCII letters is its own lower-cased form. */
  lemma LowerNoUpper(s: string)
    requires forall i :: 0 <= i < |s| ==> !('A' <= s[i] <= 'Z')
    ensures Lower(s) == s
  {
  }

  lemma LowerAppend(a: string, b: string)
    ensures Lower(a + b) == Lower(a) + Lower(b)
  {
  }

  /** `needle` occurs in `hay` at position `i`. */
  ghost predicate OccursAt(hay: string, needle: string, i: int)
  {
    0 <= i && i + |needle| <= |hay| && hay[i..i + |needle|] == needle
  }

  predicate IsPrefix(p: string, s: string)
  {
    |p| <= |s| && s[..|p|] == p
  }

  /** `hay.includes(needle)`: true iff `needle` occurs somewhere in `hay`. */
  function Contains(hay: string, needle: string): (r: bool)
    ensures r <==> exists i :: OccursAt(hay, needle, i)
    decreases |hay|
  {
    if IsPrefix(needle, hay) then
      assert OccursAt(hay, needle, 0);
      true
    else if |hay| == 0 then
      false
    else
      var r := Contains(hay[1..], needle);
      assert r ==> exists i :: OccursAt(hay, needle, i) by {
        if r {
          var j :| OccursAt(hay[1..], needle, j);
          assert hay[1..][j..j + |needle|] == hay[j + 1..j + 1 + |needle|];
          assert OccursAt(hay, needle, j + 1);
        }
      }
      assert (exists i :: OccursAt(hay, needle, i)) ==> r by {
        if exists i :: OccursAt(hay, needle, i) {
          var i :| OccursAt(hay, needle, i);
          assert i != 0;
          assert hay[1..][i - 1..i - 1 + |needle|] == hay[i..i + |needle|];
          assert OccursAt(hay[1..], needle, i - 1);
        }
      }
      r
  }

  /** Every string includes the empty string. */
  lemma ContainsEmpty(hay: string)
    ensures Contains(hay, "")
  {
    assert OccursAt(hay, "", 0);
  }

  /** Shortening the needle at its end keeps it included. */
  lemma ContainsPrefixOfNeedle(hay: string, needle: string, more: string)
    requires Contains(hay, needle + more)
    ensures Contains(hay, needle)
  {
    var i :| OccursAt(hay, needle + more, i);
    assert hay[i..i + |needle|] == (needle + more)[..|needle|];
    assert OccursAt(hay, needle, i);
  }

  /** Every character of an included needle occurs in the haystack. */
  lemma ContainsChars(hay: string, needle: string, c: char)
    requires Contains(hay, needle)
    requires c in needle
    ensures c in hay
  {
    var i :| OccursAt(hay, needle, i);
    var k :| 0 <= k < |needle| && needle[k] == c;
    assert hay[i + k] == hay[i..i + |needle|][k];
  }

  /** A longer needle is never included in a shorter haystack. */
  lemma ContainsLength(hay: string, needle: string)
    requires Contains(hay, needle)
    ensures |needle| <= |hay|
  {
  }

  // ---------------------------------------------------------------------
  // split(' ') and join(' ')
  // ---------------------------------------------------------------------

  function CountSpaces(s: string): nat
  {
    if |s| == 0 then 0 else (if s[0] == ' ' then 1 else 0) + CountSpaces(s[1..])
  }

  predicate SpaceFree(s: string)
  {
    ' ' !in s
  }

  /**
    `s.split(' ')`: the maximal space-free pieces between single spaces.
    Doubled, leading and trailing spaces give empty pieces, and the empty
    string gives one empty piece.
   */
  function Split(s: string): (r: seq<string>)
    ensures |r| == CountSpaces(s) + 1
    ensures forall i :: 0 <= i < |r| ==> SpaceFree(r[i])
    decreases |s|
  {
    if |s| == 0 then [""]
    else if s[0] == ' ' then [""] + Split(s[1..])
    else
      var rest := Split(s[1..]);
      [[s[0]] + rest[0]] + rest[1..]
  }

  /** Prefixing a character to the first piece commutes with appending more pieces. */
  lemma ConsPieceAppend(c: char, x: seq<string>, y: seq<string>)
    requires |x| >= 1
    ensures [[c] + x[0]] + x[1..] + y == [[c] + (x + y)[0]] + (x + y)[1..]
  {
    assert (x + y)[0] == x[0];
    assert (x + y)[1..] == x[1..] + y;
  }

  /** Splitting at one space: the pieces of the part before it followed by the pieces of the part after it. */
  lemma {:induction false} SplitAppend(a: string, b: string)
    ensures Split(a + " " + b) == Split(a) + Split(b)
    decreases |a|
  {
    var s := a + " " + b;
    if |a| == 0 {
      assert s == " " + b && s[1..] == b;
    } else {
      assert s[0] == a[0];
      assert s[1..] == a[1..] + " " + b;
      SplitAppend(a[1..], b);
      var rest := Split(a[1..]);
      var tail := Split(s[1..]);
      assert tail == rest + Split(b);
      if a[0] == ' ' {
        assert Split(s) == [""] + tail;
        assert Split(a) == [""] + rest;
      } else {
        assert Split(s) == [[a[0]] + tail[0]] + tail[1..];
        assert Split(a) == [[a[0]] + rest[0]] + rest[1..];
        ConsPieceAppend(a[0], rest, Split(b));
      }
    }
  }

  /** `pieces.join(' ')`, for the non-empty lists `split` produces. */
  function Join(pieces: seq<string>): string
    requires |pieces| >= 1
  {
    if |pieces| == 1 then pieces[0] else pieces[0] + " " + Join(pieces[1..])
  }

  lemma {:induction false} JoinConsHead(c: char, pieces: seq<string>)
    requires |pieces| >= 1
    ensures Join([[c] + pieces[0]] + pieces[1..]) == [c] + Join(pieces)
  {
    var ps := [[c] + pieces[0]] + pieces[1..];
    assert |ps| == |pieces| && ps[0] == [c] + pieces[0];
    if |pieces| > 1 {
      assert ps[1..] == pieces[1..];
      var rest := Join(pieces[1..]);
      assert Join(ps) == ps[0] + " " + rest;
      assert Join(pieces) == pieces[0] + " " + rest;
      assert ([c] + pieces[0]) + " " + rest == [c] + (pieces[0] + " " + rest);
    }
  }

  /** Splitting and re-joining gives back the text exactly. */
  lemma {:induction false} JoinSplit(s: string)
    ensures Join(Split(s)) == s
    decreases |s|
  {
    if |s| == 0 {
    } else if s[0] == ' ' {
      JoinSplit(s[1..]);
      var r := [""] + Split(s[1..]);
      assert r[1..] == Split(s[1..]);
      assert s == " " + s[1..];
    } else {
      JoinSplit(s[1..]);
      JoinConsHead(s[0], Split(s[1..]));
      assert s == [s[0]] + s[1..];
    }
  }

  /** Joining space-free pieces and splitting again gives back the pieces: `Split` is the only such decomposition. */
  lemma {:induction false} SplitJoin(pieces: seq<string>)
    requires |pieces| >= 1
    requires forall i :: 0 <= i < |pieces| ==> SpaceFree(pieces[i])
    ensures Split(Join(pieces)) == pieces
    decreases |pieces|, |pieces[0]|
  {
    if |pieces[0]| == 0 {
      if |pieces| == 1 {
      } else {
        var j := Join(pieces);
        assert j == " " + Join(pieces[1..]);
        assert j[1..] == Join(pieces[1..]);
        SplitJoin(pieces[1..]);
        assert pieces == [""] + pieces[1..];
      }
    } else {
      var c := pieces[0][0];
      var tail := [pieces[0][1..]] + pieces[1..];
      assert tail[1..] == pieces[1..];
      assert SpaceFree(tail[0]) by {
        assert forall k :: 0 <= k < |tail[0]| ==> tail[0][k] == pieces[0][k + 1];
      }
      assert forall i :: 0 <= i < |tail| ==> SpaceFree(tail[i]);
      SplitJoin(tail);
      assert pieces[0] == [c] + tail[0];
      assert [[c] + tail[0]] + tail[1..] == pieces;
      JoinConsHead(c, tail);
      var j := Join(pieces);
      assert j == [c] + Join(tail);
      assert j[0] == c && c != ' ';
      assert j[1..] == Join(tail);
    }
  }

  // ---------------------------------------------------------------------
  // Distinctness
  // ---------------------------------------------------------------------

  predicate Distinct<T(==)>(s: seq<T>)
  {
    forall i, j :: 0 <= i < j < |s| ==> s[i] != s[j]
  }

  /** A sequence is distinct iff no value occurs twice in its multiset. */
  lemma {:induction false} DistinctMultiset<T>(s: seq<T>)
    ensures Distinct(s) <==> forall x :: multiset(s)[x] <= 1
    decreases |s|
  {
    if |s| == 0 {
    } else {
      DistinctMultiset(s[1..]);
      assert s == [s[0]] + s[1..];
      assert multiset(s) == multiset{s[0]} + multiset(s[1..]);
      if Distinct(s) {
        assert s[0] !in s[1..] by {
          forall k | 0 <= k < |s[1..]| ensures s[1..][k] != s[0] {
            assert s[1..][k] == s[k + 1];
          }
        }
        assert Distinct(s[1..]) by {
          forall i, j | 0 <= i < j < |s[1..]| ensures s[1..][i] != s[1..][j] {
            assert s[1..][i] == s[i + 1] && s[1..][j] == s[j + 1];
          }
        }
      } else {
        var i, j :| 0 <= i < j < |s| && s[i] == s[j];
        if i == 0 {
          assert s[j] == s[1..][j - 1];
          assert multiset(s)[s[0]] >= 2;
        } else {
          assert s[i] == s[1..][i - 1] && s[j] == s[1..][j - 1];
          assert !Distinct(s[1..]);
          var x :| multiset(s[1..])[x] > 1;
          assert multiset(s)[x] > 1;
        }
      }
    }
  }

  /** Distinctness depends only on the multiset of elements. */
  lemma DistinctPermutation<T>(a: seq<T>, b: seq<T>)
    requires multiset(a) == multiset(b)
    requires Distinct(a)
    ensures Distinct(b)
  {
    DistinctMultiset(a);
    DistinctMultiset(b);
  }

  lemma DistinctPrefix<T>(s: seq<T>, k: nat)
    requires Distinct(s)
    requires k <= |s|
    ensures Distinct(s[..k])
  {
  }
}
